=== FILE: README.md ===
# SpartaId OAuth2 provider adapter — a Dafny model

This project models the string-level core of the SpartaId provider adapter
(`src/Provider/SpartaId.php`). The adapter plugs into a generic OAuth2 client
framework. It builds every SpartaId URL: authorization, access token, profile
details, the provider-hosted profile, edit-profile, sign-up and logout pages,
and the membership endpoints. It also resolves and encodes the return URL that
the provider redirects back to, detects provider errors in decoded response
bodies, and builds the payload of the web-page-load activity log.

PHP strings are byte strings. The model writes a byte as the character with
the same code (`Bytes.Byte`), so string literals read as byte strings.

## Layout

| file | module | what it holds |
|---|---|---|
| `results.dfy` | `Results` | `Option` (PHP `null`) and `Result` (a value or a configuration error) |
| `bytes.dfy` | `Bytes` | bytes, byte strings, prefix and suffix |
| `php.dfy` | `Php` | PHP truthiness (`""` and `"0"` are falsy), decoded JSON values, `isset`, reading a missing key, `?:` |
| `urlcoding.dfy` | `UrlCoding` | PHP `urlencode` and `urldecode`, the round trip and the character set of the encoding |
| `query_strings.dfy` | `QueryStrings` | how a receiver reads a query value back: after the last `=`, or up to the next `&` |
| `spartaid.dfy` | `SpartaId` | the provider: base URL, return URL, the eleven URL builders, `checkResponse`, the activity-log request |
| `spartaid_properties.dfy` | `SpartaIdProperties` | lemmas that relate several operations |

## Modelling decisions

- The provider is an immutable value `Provider(baseUrls, environment, returnUrl)`.
  The environment-to-base-URL table is a parameter (`map<Bytes, Bytes>`). An
  environment missing from it is a `ConfigError`. The PHP source would read a
  missing key as null and fail the `string` return type.
- The web server's request variables are an explicit `Option<RequestCtx>`.
  `None` means REQUEST_URI is not set. `https` records whether the HTTPS
  variable is set at all, because the source tests it with `isset`, so a
  server that sets it to `off` still yields `https`. An unset HTTP_HOST reads
  as `""` in PHP string interpolation, so it is the empty host here.
- `urlencode` keeps `[A-Za-z0-9._-]`, writes a space as `+` and writes every
  other byte as `%XX` with upper-case hex. This is the percent-encoding of
  section 2.1 of RFC 3986. It departs from the unreserved set of section 2.3:
  `~` is encoded and a space becomes `+`. `urldecode` is the partner that
  inverts it.
- The decoded response body of `checkResponse` is a `map<Bytes, Value>`. A
  `Value` is null, a boolean, an integer, a string or an array; only an
  array's emptiness matters. The error's message is the PHP value
  `$data['message'] ?: reasonPhrase`. A missing `message` key reads as null.
- The model follows the code in two places where a reader might expect
  otherwise:
  - The activity-log payload turns `"0"` into null, as well as `""` and null,
    because the source uses `?:`.
  - The order id of the order-recapitulation URL is inserted without encoding.
    `OrderIdReadBack` states the consequence: the raw bytes up to the next `&`
    are the order id exactly when it contains no `&`. A receiver that decodes
    query values reads it back intact exactly when it holds no `&` and
    `urldecode` leaves it unchanged (`OrderIdDecodedReadBackExactly`). So `+`
    and `%XX` escapes are misread: `OrderIdPlusReadsAsSpace` shows `a+b` read
    as `a b`. An order id made of `[A-Za-z0-9._-]` always survives
    (`OrderIdDecodedReadBack`). A `#`, which ends the query in a real URL, is
    outside this receiver model.

## Model

| member | source | states |
|---|---|---|
| `SpartaId.SetReturnUrl` | src/Provider/SpartaId.php:29-32 | the return URL becomes the given string; the table and the environment are unchanged |
| `SpartaId.BaseUrl` | src/Provider/SpartaId.php:101-104 | succeeds exactly when the environment has an entry in the table and returns that entry; otherwise fails with the unknown environment |
| `SpartaId.ReturnUrl` | src/Provider/SpartaId.php:155-169 | the result is the `urlencode` of the resolved target (explicit truthy URL, else the current request's URL, else `""`); it decodes back to that target; it holds only `[A-Za-z0-9._+%-]`; every `%` is followed by two upper-case hex digits |
| `SpartaId.BaseAuthorizationUrl` | src/Provider/SpartaId.php:35-38 | fails exactly when the base URL does; otherwise it starts with base + `/oauth2/authorize?returnUrl=` and the rest is a safe value that decodes to the return target; the value after the last `=` decodes to the return target |
| `SpartaId.BaseAccessTokenUrl` | src/Provider/SpartaId.php:41-44 | fails exactly when the base URL does; otherwise it is the base URL followed by `/oauth2/access-token`, by prefix, suffix and length |
| `SpartaId.ResourceOwnerDetailsUrl` | src/Provider/SpartaId.php:47-50 | as the authorization URL, with `/api/1.0/profile?returnUrl=` |
| `SpartaId.ProfileUrl` | src/Provider/SpartaId.php:53-56 | as the authorization URL, with `/?returnUrl=` |
| `SpartaId.EditProfileUrl` | src/Provider/SpartaId.php:59-62 | as the authorization URL, with `/user/edit-profile?returnUrl=` |
| `SpartaId.RegistrationUrl` | src/Provider/SpartaId.php:65-68 | as the authorization URL, with `/sign/up?returnUrl=` |
| `SpartaId.OrderKidMembershipUrl` | src/Provider/SpartaId.php:71-74 | fails exactly when the base URL does; otherwise it is the base URL followed by `/api/1.0/orders/memberships/associated` |
| `SpartaId.OrderMembershipUrl` | src/Provider/SpartaId.php:77-80 | as the authorization URL, with `/membership/buy?returnUrl=` |
| `SpartaId.KidMembershipOrderRecapitulationUrl` | src/Provider/SpartaId.php:83-86 | fails exactly when the base URL does; otherwise it starts with base + `/associated-membership/order-recapitulation?orderId=` + the raw order id + `&returnUrl=`, and the rest decodes to the return target; the value after the last `=` decodes to the return target whatever the order id holds |
| `SpartaId.LogoutUrl` | src/Provider/SpartaId.php:89-92 | as the authorization URL, with `?do=logout&returnUrl=` |
| `SpartaId.HasSpartaCampMembershipUrl` | src/Provider/SpartaId.php:95-98 | fails exactly when the base URL does; otherwise it is the base URL followed by `/api/1.0/orders/memberships/spartacamp` |
| `SpartaId.WebPageLoadData` | src/Provider/SpartaId.php:109-113 | `url` is unchanged; `ipAddress` is null exactly when the input is null, `""` or `"0"`, and is the input otherwise; the same holds for `userAgent` |
| `SpartaId.LogWebPageLoad` | src/Provider/SpartaId.php:107-124 | in the model, fails exactly when the base URL does, since the JSON encoding failure is left out; otherwise it is a POST with the given bearer token to base + `/api/1.0/user/activities/web-page-load`, whose body is the `$data` record |
| `SpartaId.CheckResponse` | src/Provider/SpartaId.php:137-146 | raises an error exactly when the body has an `error` key whose value is not null; the error's code is the status code; its message is `message` when that is present and truthy, and the reason phrase otherwise |
| `Php.OrNull` | src/Provider/SpartaId.php:111-112 | `$s ?: null` is null exactly for null, `""` and `"0"`, and is `$s` otherwise |
| `UrlCoding.Encode` | src/Provider/SpartaId.php:158 | the encoding of `s` holds only `[A-Za-z0-9._+%-]` and is between `|s|` and `3·|s|` bytes long |
| `UrlCoding.DecodeEncode` | src/Provider/SpartaId.php:168 | `urldecode(urlencode(s)) == s` for every byte string |
| `UrlCoding.EncodeInjective` | src/Provider/SpartaId.php:158 | two strings with the same encoding are equal |
| `UrlCoding.EncodePercentWellFormed` | src/Provider/SpartaId.php:168 | every `%` in an encoding is followed by two upper-case hex digits |
| `UrlCoding.EncodeHasNoQueryDelimiters` | src/Provider/SpartaId.php:158 | an encoding contains no `&`, `=`, `?` or `#` |
| `UrlCoding.EncodeAppend` | src/Provider/SpartaId.php:166-168 | the encoding of a concatenation is the concatenation of the encodings |
| `UrlCoding.EncodeFixesExactlyUnreserved` | src/Provider/SpartaId.php:158 | a string is its own encoding exactly when all its bytes are in `[A-Za-z0-9._-]` (so `~` and space are changed) |
| `SpartaIdProperties.ReturnUrlBuildersShareOneShape` | src/Provider/SpartaId.php:35-92 | each of the eight return-URL builders is exactly the base URL, its fixed query start, `returnUrl=` and `getReturnUrl()` |
| `SpartaIdProperties.AccessTokenUrlIgnoresParams` | src/Provider/SpartaId.php:41-44 | the access-token URL is base + `/oauth2/access-token` whatever the parameters and the return URL hold |
| `SpartaIdProperties.MembershipApiUrlsHaveNoReturnUrl` | src/Provider/SpartaId.php:71-98 | the two membership API URLs are the base URL and a fixed path, and do not depend on the return URL |
| `SpartaIdProperties.BuildersStartWithBaseUrl` | src/Provider/SpartaId.php:101-104 | the base URL depends on the environment alone; when it fails every builder fails, and otherwise every builder's URL starts with it |
| `SpartaIdProperties.OrderIdReadBack` | src/Provider/SpartaId.php:85 | the raw order id directly follows `orderId=`; the raw bytes up to the next `&` are the order id exactly when it contains no `&` |
| `SpartaIdProperties.OrderIdDecodedRead` | src/Provider/SpartaId.php:85 | for an order id without `&`, a receiver that decodes the value up to the next `&` gets `urldecode` of the order id, which differs from the order id when it holds `+` or a `%XX` escape |
| `SpartaIdProperties.OrderIdDecodedReadBackExactly` | src/Provider/SpartaId.php:85 | a decoding receiver gets the order id back exactly when it holds no `&` and `urldecode` leaves it unchanged |
| `SpartaIdProperties.OrderIdDecodedReadBack` | src/Provider/SpartaId.php:85 | an order id made only of `[A-Za-z0-9._-]` is read back intact by a decoding receiver |
| `SpartaIdProperties.OrderIdPlusReadsAsSpace` | src/Provider/SpartaId.php:85 | the unencoded order id `a+b` is read by a decoding receiver as `a b` |
| `SpartaIdProperties.ExplicitReturnUrlWins` | src/Provider/SpartaId.php:157-159 | with a truthy explicit URL the request context is ignored and the return URL decodes to the explicit URL |
| `SpartaIdProperties.NoContextGivesEmptyReturnUrl` | src/Provider/SpartaId.php:161-163 | with no truthy explicit URL and no request URI the return URL is `""`, and all eight return-URL builders end in an empty `returnUrl=` |
| `SpartaIdProperties.FallsBackToCurrentRequest` | src/Provider/SpartaId.php:165-168 | otherwise the return URL decodes to scheme (`https` when HTTPS is set, else `http`) + `://` + host + URI |
| `SpartaIdProperties.FalsyReturnUrlIsIgnored` | src/Provider/SpartaId.php:157 | an explicit return URL of `""` or `"0"` behaves as if none had been set |
| `SpartaIdProperties.EncodeUrlWithQuery` | src/Provider/SpartaId.php:158 | for unreserved parts, `scheme://host/path?key=value` encodes to `scheme%3A%2F%2Fhost%2Fpath%3Fkey%3Dvalue` |
| `SpartaIdProperties.ExplicitReturnUrlExample` | src/Provider/SpartaId.php:37 | with explicit URL `https://app.example/cb?x=1` the authorization URL is base + `/oauth2/authorize?returnUrl=https%3A%2F%2Fapp.example%2Fcb%3Fx%3D1` |
| `SpartaIdProperties.CheckResponseIgnoresOtherKeys` | src/Provider/SpartaId.php:139-141 | keys other than `error` and `message` never change the outcome of `checkResponse` |
| `SpartaIdProperties.CheckResponseMessageIsTruthy` | src/Provider/SpartaId.php:141 | with a truthy reason phrase, a raised error never carries a falsy message |
| `SpartaIdProperties.CheckResponseExamples` | src/Provider/SpartaId.php:139-145 | `bad code` with status 400 is kept; `""`, `"0"` and a missing message fall back to the reason phrase; a null `error` and a missing `error` raise nothing |
| `SpartaIdProperties.WebPageLoadDataNormalises` | src/Provider/SpartaId.php:109-113 | the payload never carries a falsy ip address or user agent, and building it again from itself changes nothing |
| `SpartaId.DefaultScopes` | src/Provider/SpartaId.php:131-134 | one scope is requested by default, and it is `profile` |
| `SpartaIdProperties.DefaultScopesAreProfile` | src/Provider/SpartaId.php:131-134 | `getDefaultScopes()` returns the list `['profile']` and nothing else |

## Left out

- Sending requests: `getAuthenticatedRequest` and the HTTP client's `send` are framework I/O. `LogWebPageLoad` stops at the request it would send, and transport errors are not modelled.
- JSON encoding: `Json::encode` belongs to a foreign library. The payload is the record `WebPageLoad`, not JSON text.
- `SpartaId.LogWebPageLoad`: does not model the failure of `Json::encode` on line 120, which throws when the url, ip address or user agent is not valid UTF-8. With a known environment the model always builds the request.
- The exception object: `IdentityProviderException` and its `(array) $response` diagnostic payload are not modelled. The error is the pair of message value and status code.
- `SpartaId.CheckResponse`: the message is kept as the PHP value. Its conversion to a string by the exception constructor is not modelled, and neither is a body that is not an array, such as a raw string body.
- `createResourceOwner` and `SpartaIdResourceOwner`: the resource owner class is not part of this model. Only its key, `AccessTokenResourceOwnerId = "id"`, is recorded.
- The real base URLs: the contents of `SpartaIdEnvironment::BASE_URL` are not part of this model. The table is a parameter, and the default environment constant is left to the caller.
- Server globals: `$_SERVER` is replaced by the explicit `Option<RequestCtx>` parameter.
- Framework inheritance: `AbstractProvider` and `BearerAuthorizationTrait` are not modelled.
- Floating-point JSON values: `Php.Value` has no float case, so the truthiness of `0.0` is not modelled.

=== FILE: bytes.dfy ===
/** PHP strings are byte strings. A byte is written here as the character
    with the same code (0..255), so string literals read as byte strings. */
module Bytes {

  type Byte = c: char | c as int < 256

  type Bytes = seq<Byte>

  /** The byte with code `n`. */
  function ByteOf(n: nat): (b: Byte)
    requires n < 256
    ensures b as int == n
  {
    n as char
  }

  predicate IsPrefix(prefix: Bytes, s: Bytes) {
    |prefix| <= |s| && s[..|prefix|] == prefix
  }

  predicate IsSuffix(suffix: Bytes, s: Bytes) {
    |suffix| <= |s| && s[|s| - |suffix|..] == suffix
  }
}

=== FILE: php.dfy ===
/** The fragments of PHP value semantics the provider relies on:
    truthiness, `isset`, reading a missing array key, and `?:`. */
module Php {
  import opened Bytes
  import opened Results

  /** A PHP string is falsy exactly when it is "" or "0". */
  predicate Truthy(s: Bytes) {
    s != "" && s != "0"
  }

  /** A nullable string (`?string`) is truthy when it is set and truthy. */
  predicate TruthyOption(s: Option<Bytes>) {
    s.Some? && Truthy(s.value)
  }

  /** A decoded JSON value as PHP holds it (JSON objects decode to arrays;
      array keys do not matter to anything modelled here). */
  datatype Value =
    | Null
    | Bool(b: bool)
    | Int(i: int)
    | Str(s: Bytes)
    | Array(items: seq<Value>)

  predicate TruthyValue(v: Value) {
    match v
    case Null => false
    case Bool(b) => b
    case Int(i) => i != 0
    case Str(s) => Truthy(s)
    case Array(items) => |items| > 0
  }

  /** `isset($m[$k])`: the key is present and its value is not null. */
  predicate Isset(m: map<Bytes, Value>, k: Bytes) {
    k in m && m[k] != Null
  }

  /** `$m[$k]`: a missing key reads as null (PHP only emits a warning). */
  function Index(m: map<Bytes, Value>, k: Bytes): Value {
    if k in m then m[k] else Null
  }

  /** `$a ?: $b` */
  function Elvis(a: Value, b: Value): Value {
    if TruthyValue(a) then a else b
  }

  /** `$s ?: null` on a nullable string. */
  function OrNull(s: Option<Bytes>): (r: Option<Bytes>)
    ensures r.None? <==> s == None || s == Some("") || s == Some("0")
    ensures r.Some? ==> r == s
  {
    if TruthyOption(s) then s else None
  }
}

=== FILE: query_strings.dfy ===
/** How a receiver reads values back out of a query string. */
module QueryStrings {
  import opened Bytes

  /** The bytes after the last `=` of `s` (all of `s` when it has none):
      how a receiver finds the value of the final query parameter without
      knowing what precedes it. */
  function AfterLastEquals(s: Bytes): (r: Bytes)
    ensures IsSuffix(r, s)
    ensures '=' !in r
    ensures r == s || (|r| < |s| && s[|s| - |r| - 1] == '=')
    decreases |s|
  {
    if s == [] then []
    else if s[|s| - 1] == '=' then []
    else AfterLastEquals(s[..|s| - 1]) + [s[|s| - 1]]
  }

  /** The bytes of `s` before its first `&` (all of `s` when it has none):
      how a receiver reads the value of a query parameter that is followed by
      another one. */
  function BeforeAmpersand(s: Bytes): (r: Bytes)
    ensures IsPrefix(r, s)
    ensures '&' !in r
    ensures r == s || (|r| < |s| && s[|r|] == '&')
  {
    if s == [] then []
    else if s[0] == '&' then []
    else [s[0]] + BeforeAmpersand(s[1..])
  }

  lemma {:induction false} AfterLastEqualsOfValue(u: Bytes, v: Bytes)
    requires '=' !in v
    ensures AfterLastEquals(u + "=" + v) == v
    decreases |v|
  {
    var s := u + "=" + v;
    if v == [] {
      assert s[|s| - 1] == '=';
    } else {
      var init := v[..|v| - 1];
      assert s[|s| - 1] == v[|v| - 1];
      assert s[..|s| - 1] == u + "=" + init;
      AfterLastEqualsOfValue(u, init);
      assert init + [v[|v| - 1]] == v;
    }
  }

  lemma {:induction false} BeforeAmpersandOfValue(o: Bytes, rest: Bytes)
    ensures BeforeAmpersand(o + "&" + rest) == o <==> '&' !in o
  {
    if o != [] && '&' !in o {
      assert (o + "&" + rest)[0] == o[0];
      assert (o + "&" + rest)[1..] == o[1..] + "&" + rest;
      BeforeAmpersandOfValue(o[1..], rest);
      assert [o[0]] + o[1..] == o;
    } else if o == [] {
      assert (o + "&" + rest)[0] == '&';
    }
  }

  /** `prefix`, an unescaped `value` and `&` followed by anything: the raw
      bytes up to the next `&` are the value exactly when it holds no `&`. */
  lemma ReadBackBeforeAmpersand(prefix: Bytes, value: Bytes, rest: Bytes)
    ensures IsPrefix(prefix, prefix + value + "&" + rest)
    ensures (prefix + value + "&" + rest)[|prefix|..] == value + "&" + rest
    ensures BeforeAmpersand((prefix + value + "&" + rest)[|prefix|..]) == value <==> '&' !in value
  {
    var url := prefix + value + "&" + rest;
    assert url[..|prefix|] == prefix;
    assert url[|prefix|..] == value + "&" + rest;
    BeforeAmpersandOfValue(value, rest);
  }
}

=== FILE: results.dfy ===
/** An optional value, standing for PHP's `null`, and a value-or-error
    result for a lookup that can fail; only the result works with `:-`. */
module Results {

  /** PHP's nullable value: `None` is `null`. */
  datatype Option<+T> = None | Some(value: T)

  /** An operation that either returns a value or fails with an error. */
  datatype Result<+T, +E> = Success(value: T) | Failure(error: E) {
    predicate IsFailure() {
      Failure?
    }

    function PropagateFailure<U>(): Result<U, E>
      requires Failure?
    {
      Failure(error)
    }

    function Extract(): T
      requires Success?
    {
      value
    }
  }
}

=== FILE: spartaid.dfy ===
/** The SpartaId OAuth2 provider adapter: provider URLs, return-URL
    resolution, response error detection and the activity-log payload.

    The environment-to-base-URL table is a parameter of the provider, and the
    web server's request variables are an explicit optional context. */
module SpartaId {
  import opened Bytes
  import opened Results
  import opened Php
  import UrlCoding
  import opened QueryStrings

  /** The key of the resource owner's identifier in a profile payload. */
  const AccessTokenResourceOwnerId: Bytes := "id"

  /** An environment name with no entry in the base-URL table. */
  datatype ConfigError = UnknownEnvironment(environment: Bytes)

  /** The adapter's state: the base-URL table, the configured environment and
      the return URL set by `setReturnUrl` (null until set). */
  datatype Provider = Provider(baseUrls: map<Bytes, Bytes>, environment: Bytes, returnUrl: Option<Bytes>)

  /** The request variables the return URL falls back on. `https` records
      whether the HTTPS server variable is set at all (whatever its value);
      an unset HTTP_HOST reads as "". The context is absent when there is no
      REQUEST_URI. */
  datatype RequestCtx = RequestCtx(https: bool, host: Bytes, uri: Bytes)

  /** An access token; the adapter only hands it on as a bearer credential. */
  datatype AccessToken = AccessToken(token: Bytes)

  /** The exception `checkResponse` throws: the message value and the HTTP
      status code. */
  datatype IdentityProviderError = IdentityProviderError(message: Value, code: int)

  /** The `$data` record of `logWebPageLoad`. */
  datatype WebPageLoad = WebPageLoad(url: Bytes, ipAddress: Option<Bytes>, userAgent: Option<Bytes>)

  /** The authenticated request `logWebPageLoad` hands to the HTTP client. */
  datatype Request = Request(verb: Bytes, url: Bytes, bearer: AccessToken, body: WebPageLoad)

  /** The name of the query parameter every return URL is passed in. */
  const ReturnUrlKey: Bytes := "returnUrl="

  /** The fixed part of each builder's URL after the base URL. The builders
      that pass a return URL end it with `ReturnUrlKey` and the encoded
      return URL. */
  const AuthorizeQuery: Bytes := "/oauth2/authorize?"
  const AccessTokenPath: Bytes := "/oauth2/access-token"
  const ProfileDetailsQuery: Bytes := "/api/1.0/profile?"
  const ProfileQuery: Bytes := "/?"
  const EditProfileQuery: Bytes := "/user/edit-profile?"
  const RegistrationQuery: Bytes := "/sign/up?"
  const OrderKidMembershipPath: Bytes := "/api/1.0/orders/memberships/associated"
  const OrderMembershipQuery: Bytes := "/membership/buy?"
  // Two literals: the verifier cannot show that a single literal of this
  // length consists of bytes.
  const OrderRecapitulationQuery: Bytes := "/associated-membership" + "/order-recapitulation?orderId="
  const LogoutQuery: Bytes := "?do=logout&"
  const SpartaCampMembershipPath: Bytes := "/api/1.0/orders/memberships/spartacamp"
  const WebPageLoadPath: Bytes := "/api/1.0/user/activities/web-page-load"

  /** `setReturnUrl` */
  function SetReturnUrl(p: Provider, url: Bytes): (q: Provider)
    ensures q.returnUrl == Some(url)
    ensures q.baseUrls == p.baseUrls && q.environment == p.environment
  {
    p.(returnUrl := Some(url))
  }

  /** `getBaseUrl`: the table entry of the configured environment. */
  function BaseUrl(p: Provider): (r: Result<Bytes, ConfigError>)
    ensures r.Success? <==> p.environment in p.baseUrls
    ensures r.Success? ==> r.value == p.baseUrls[p.environment]
    ensures r.Failure? ==> r.error == UnknownEnvironment(p.environment)
  {
    if p.environment in p.baseUrls then Success(p.baseUrls[p.environment])
    else Failure(UnknownEnvironment(p.environment))
  }

  /** The URL of the current request, `$protocol://HTTP_HOST REQUEST_URI`. */
  function CurrentUrl(ctx: RequestCtx): Bytes {
    (if ctx.https then "https" else "http") + "://" + ctx.host + ctx.uri
  }

  /** The URL the provider should send the user back to, before encoding:
      the explicit return URL when it is truthy, else the current request's
      URL, else "". */
  function ReturnTarget(p: Provider, server: Option<RequestCtx>): Bytes {
    if TruthyOption(p.returnUrl) then p.returnUrl.value
    else if server.None? then ""
    else CurrentUrl(server.value)
  }

  /** `getReturnUrl`: the encoded return URL. */
  function ReturnUrl(p: Provider, server: Option<RequestCtx>): (r: Bytes)
    ensures r == UrlCoding.Encode(ReturnTarget(p, server))
    ensures UrlCoding.Decode(r) == ReturnTarget(p, server)
    ensures UrlCoding.AllSafe(r) && UrlCoding.PercentWellFormed(r)
  {
    if TruthyOption(p.returnUrl) then
      UrlCoding.DecodeEncode(p.returnUrl.value);
      UrlCoding.EncodePercentWellFormed(p.returnUrl.value);
      UrlCoding.Encode(p.returnUrl.value)
    else if server.None? then
      ""
    else
      var actualLink := CurrentUrl(server.value);
      UrlCoding.DecodeEncode(actualLink);
      UrlCoding.EncodePercentWellFormed(actualLink);
      UrlCoding.Encode(actualLink)
  }

  /** `url` is `prefix` followed by a query value made only of bytes
      `urlencode` emits, which decodes to `target`. */
  predicate CarriesReturnUrl(url: Bytes, prefix: Bytes, target: Bytes) {
    && IsPrefix(prefix, url)
    && UrlCoding.AllSafe(url[|prefix|..])
    && UrlCoding.Decode(url[|prefix|..]) == target
  }

  lemma CarriesEncodedValue(prefix: Bytes, encoded: Bytes, target: Bytes)
    requires UrlCoding.AllSafe(encoded) && UrlCoding.Decode(encoded) == target
    ensures CarriesReturnUrl(prefix + encoded, prefix, target)
  {
  }

  /** A value that `urlencode` produced is found again as the last query
      value, whatever precedes `returnUrl=`. */
  lemma LastQueryValueOfCarrier(url: Bytes, front: Bytes, target: Bytes)
    requires CarriesReturnUrl(url, front + ReturnUrlKey, target)
    ensures UrlCoding.Decode(AfterLastEquals(url)) == target
  {
    var prefix := front + ReturnUrlKey;
    var v := url[|prefix|..];
    var u := prefix[..|prefix| - 1];
    assert '=' !in v;
    assert prefix[|prefix| - 1] == ReturnUrlKey[|ReturnUrlKey| - 1] == '=';
    assert prefix == u + "=";
    assert url == url[..|prefix|] + v;
    AfterLastEqualsOfValue(u, v);
    assert url == u + "=" + v;
  }

  /** The base URL followed by `suffix`. */
  function OnBase(p: Provider, suffix: Bytes): (r: Result<Bytes, ConfigError>)
    ensures r.Success? <==> p.environment in p.baseUrls
    ensures r.Failure? ==> r.error == UnknownEnvironment(p.environment)
    ensures r.Success? ==> r.value == p.baseUrls[p.environment] + suffix
  {
    var base :- BaseUrl(p);
    Success(base + suffix)
  }

  /** The base URL, a fixed query start, `returnUrl=` and the encoded
      return URL. */
  function WithReturnUrl(p: Provider, server: Option<RequestCtx>, query: Bytes): (r: Result<Bytes, ConfigError>)
    ensures r.Success? <==> p.environment in p.baseUrls
    ensures r.Failure? ==> r.error == UnknownEnvironment(p.environment)
    ensures r.Success? ==> r.value == p.baseUrls[p.environment] + query + ReturnUrlKey + ReturnUrl(p, server)
    ensures r.Success? ==> CarriesReturnUrl(r.value, p.baseUrls[p.environment] + query + ReturnUrlKey, ReturnTarget(p, server))
    ensures r.Success? ==> UrlCoding.Decode(AfterLastEquals(r.value)) == ReturnTarget(p, server)
  {
    var encoded := ReturnUrl(p, server);
    var r := OnBase(p, query + ReturnUrlKey + encoded);
    if r.Success? then
      var prefix := p.baseUrls[p.environment] + query + ReturnUrlKey;
      assert r.value == prefix + encoded;
      CarriesEncodedValue(prefix, encoded, ReturnTarget(p, server));
      LastQueryValueOfCarrier(r.value, p.baseUrls[p.environment] + query, ReturnTarget(p, server));
      r
    else
      r
  }

  /** `getBaseAuthorizationUrl` */
  function BaseAuthorizationUrl(p: Provider, server: Option<RequestCtx>): (r: Result<Bytes, ConfigError>)
    ensures r.Success? <==> p.environment in p.baseUrls
    ensures r.Success? ==> CarriesReturnUrl(r.value, p.baseUrls[p.environment] + AuthorizeQuery + ReturnUrlKey, ReturnTarget(p, server))
    ensures r.Success? ==> UrlCoding.Decode(AfterLastEquals(r.value)) == ReturnTarget(p, server)
  {
    WithReturnUrl(p, server, AuthorizeQuery)
  }

  /** `getBaseAccessTokenUrl`: the request parameters are not used. */
  function BaseAccessTokenUrl(p: Provider, params: map<Bytes, Value>): (r: Result<Bytes, ConfigError>)
    ensures r.Success? <==> p.environment in p.baseUrls
    ensures r.Success? ==> IsPrefix(p.baseUrls[p.environment], r.value)
    ensures r.Success? ==> IsSuffix(AccessTokenPath, r.value)
    ensures r.Success? ==> |r.value| == |p.baseUrls[p.environment]| + |AccessTokenPath|
  {
    OnBase(p, AccessTokenPath)
  }

  /** `getResourceOwnerDetailsUrl`: the token is not part of the URL. */
  function ResourceOwnerDetailsUrl(p: Provider, server: Option<RequestCtx>, token: AccessToken): (r: Result<Bytes, ConfigError>)
    ensures r.Success? <==> p.environment in p.baseUrls
    ensures r.Success? ==> CarriesReturnUrl(r.value, p.baseUrls[p.environment] + ProfileDetailsQuery + ReturnUrlKey, ReturnTarget(p, server))
    ensures r.Success? ==> UrlCoding.Decode(AfterLastEquals(r.value)) == ReturnTarget(p, server)
  {
    WithReturnUrl(p, server, ProfileDetailsQuery)
  }

  /** `getProfileUrl` */
  function ProfileUrl(p: Provider, server: Option<RequestCtx>): (r: Result<Bytes, ConfigError>)
    ensures r.Success? <==> p.environment in p.baseUrls
    ensures r.Success? ==> CarriesReturnUrl(r.value, p.baseUrls[p.environment] + ProfileQuery + ReturnUrlKey, ReturnTarget(p, server))
    ensures r.Success? ==> UrlCoding.Decode(AfterLastEquals(r.value)) == ReturnTarget(p, server)
  {
    WithReturnUrl(p, server, ProfileQuery)
  }

  /** `getEditProfileUrl` */
  function EditProfileUrl(p: Provider, server: Option<RequestCtx>): (r: Result<Bytes, ConfigError>)
    ensures r.Success? <==> p.environment in p.baseUrls
    ensures r.Success? ==> CarriesReturnUrl(r.value, p.baseUrls[p.environment] + EditProfileQuery + ReturnUrlKey, ReturnTarget(p, server))
    ensures r.Success? ==> UrlCoding.Decode(AfterLastEquals(r.value)) == ReturnTarget(p, server)
  {
    WithReturnUrl(p, server, EditProfileQuery)
  }

  /** `getRegistrationUrl` */
  function RegistrationUrl(p: Provider, server: Option<RequestCtx>): (r: Result<Bytes, ConfigError>)
    ensures r.Success? <==> p.environment in p.baseUrls
    ensures r.Success? ==> CarriesReturnUrl(r.value, p.baseUrls[p.environment] + RegistrationQuery + ReturnUrlKey, ReturnTarget(p, server))
    ensures r.Success? ==> UrlCoding.Decode(AfterLastEquals(r.value)) == ReturnTarget(p, server)
  {
    WithReturnUrl(p, server, RegistrationQuery)
  }

  /** `getOrderKidMembershipUrl`: no return URL. */
  function OrderKidMembershipUrl(p: Provider): (r: Result<Bytes, ConfigError>)
    ensures r.Success? <==> p.environment in p.baseUrls
    ensures r.Success? ==> IsPrefix(p.baseUrls[p.environment], r.value)
    ensures r.Success? ==> IsSuffix(OrderKidMembershipPath, r.value)
    ensures r.Success? ==> |r.value| == |p.baseUrls[p.environment]| + |OrderKidMembershipPath|
  {
    OnBase(p, OrderKidMembershipPath)
  }

  /** `getOrderMembershipUrl` */
  function OrderMembershipUrl(p: Provider, server: Option<RequestCtx>): (r: Result<Bytes, ConfigError>)
    ensures r.Success? <==> p.environment in p.baseUrls
    ensures r.Success? ==> CarriesReturnUrl(r.value, p.baseUrls[p.environment] + OrderMembershipQuery + ReturnUrlKey, ReturnTarget(p, server))
    ensures r.Success? ==> UrlCoding.Decode(AfterLastEquals(r.value)) == ReturnTarget(p, server)
  {
    WithReturnUrl(p, server, OrderMembershipQuery)
  }

  /** The query start of the order recapitulation: the order id is inserted
      as it is, without encoding. */
  function RecapitulationQuery(orderId: Bytes): Bytes {
    OrderRecapitulationQuery + orderId + "&"
  }

  /** `getKidMembershipOrderRecapitulationUrl`: the order id comes before the
      return URL. */
  function KidMembershipOrderRecapitulationUrl(p: Provider, server: Option<RequestCtx>, orderId: Bytes): (r: Result<Bytes, ConfigError>)
    ensures r.Success? <==> p.environment in p.baseUrls
    ensures r.Success? ==> CarriesReturnUrl(r.value, p.baseUrls[p.environment] + RecapitulationQuery(orderId) + ReturnUrlKey, ReturnTarget(p, server))
    ensures r.Success? ==> UrlCoding.Decode(AfterLastEquals(r.value)) == ReturnTarget(p, server)
  {
    WithReturnUrl(p, server, RecapitulationQuery(orderId))
  }

  /** `getLogoutUrl` */
  function LogoutUrl(p: Provider, server: Option<RequestCtx>): (r: Result<Bytes, ConfigError>)
    ensures r.Success? <==> p.environment in p.baseUrls
    ensures r.Success? ==> CarriesReturnUrl(r.value, p.baseUrls[p.environment] + LogoutQuery + ReturnUrlKey, ReturnTarget(p, server))
    ensures r.Success? ==> UrlCoding.Decode(AfterLastEquals(r.value)) == ReturnTarget(p, server)
  {
    WithReturnUrl(p, server, LogoutQuery)
  }

  /** `getHasSpartaCampMembershipUrl`: no return URL. */
  function HasSpartaCampMembershipUrl(p: Provider): (r: Result<Bytes, ConfigError>)
    ensures r.Success? <==> p.environment in p.baseUrls
    ensures r.Success? ==> IsPrefix(p.baseUrls[p.environment], r.value)
    ensures r.Success? ==> IsSuffix(SpartaCampMembershipPath, r.value)
    ensures r.Success? ==> |r.value| == |p.baseUrls[p.environment]| + |SpartaCampMembershipPath|
  {
    OnBase(p, SpartaCampMembershipPath)
  }

  /** The `$data` record of `logWebPageLoad`: falsy ip and user agent become
      null. */
  function WebPageLoadData(url: Bytes, ipAddress: Option<Bytes>, userAgent: Option<Bytes>): (d: WebPageLoad)
    ensures d.url == url
    ensures d.ipAddress.None? <==> ipAddress in {None, Some(""), Some("0")}
    ensures d.ipAddress.Some? ==> d.ipAddress == ipAddress
    ensures d.userAgent.None? <==> userAgent in {None, Some(""), Some("0")}
    ensures d.userAgent.Some? ==> d.userAgent == userAgent
  {
    WebPageLoad(url, OrNull(ipAddress), OrNull(userAgent))
  }

  /** `logWebPageLoad` up to the send: the POST request it builds. */
  function LogWebPageLoad(p: Provider, token: AccessToken, url: Bytes, ipAddress: Option<Bytes>, userAgent: Option<Bytes>): (r: Result<Request, ConfigError>)
    ensures r.Success? <==> p.environment in p.baseUrls
    ensures r.Failure? ==> r.error == UnknownEnvironment(p.environment)
    ensures r.Success? ==> r.value.verb == "POST" && r.value.bearer == token
    ensures r.Success? ==> r.value.url == p.baseUrls[p.environment] + WebPageLoadPath
    ensures r.Success? ==> r.value.body == WebPageLoadData(url, ipAddress, userAgent)
  {
    var data := WebPageLoadData(url, ipAddress, userAgent);
    var target :- OnBase(p, WebPageLoadPath);
    Success(Request("POST", target, token, data))
  }

  /** `getDefaultScopes`: the scopes requested when the caller names none. */
  function DefaultScopes(): (r: seq<Bytes>)
    ensures |r| == 1
    ensures forall s :: s in r <==> s == "profile"
  {
    ["profile"]
  }

  /** `checkResponse`: a body with a non-null `error` raises an error carrying
      the status code and the body's `message`, or the reason phrase when the
      message is missing or falsy. */
  function CheckResponse(data: map<Bytes, Value>, status: int, reasonPhrase: Bytes): (r: Option<IdentityProviderError>)
    ensures r.Some? <==> "error" in data && data["error"] != Null
    ensures r.Some? ==> r.value.code == status
    ensures r.Some? && "message" in data && TruthyValue(data["message"]) ==> r.value.message == data["message"]
    ensures r.Some? && !("message" in data && TruthyValue(data["message"])) ==> r.value.message == Str(reasonPhrase)
  {
    if Isset(data, "error") then
      Some(IdentityProviderError(Elvis(Index(data, "message"), Str(reasonPhrase)), status))
    else
      None
  }
}

=== FILE: spartaid_properties.dfy ===
/** Properties that relate several operations of the SpartaId adapter: the
    common shape of the URL builders, the return-URL round trip through a
    built URL, the resolution order of the return URL, the unescaped order
    id, error detection and the activity-log payload. */
module SpartaIdProperties {
  import opened Bytes
  import opened Results
  import opened Php
  import UrlCoding
  import opened QueryStrings
  import opened SpartaId

  /** Every builder that carries a return URL is the base URL, a fixed
      query start, `returnUrl=` and `getReturnUrl()`. */
  lemma ReturnUrlBuildersShareOneShape(p: Provider, server: Option<RequestCtx>, token: AccessToken, orderId: Bytes)
    requires p.environment in p.baseUrls
    ensures var base, ret := p.baseUrls[p.environment], ReturnUrl(p, server);
      && BaseAuthorizationUrl(p, server) == Success(base + AuthorizeQuery + ReturnUrlKey + ret)
      && ResourceOwnerDetailsUrl(p, server, token) == Success(base + ProfileDetailsQuery + ReturnUrlKey + ret)
      && ProfileUrl(p, server) == Success(base + ProfileQuery + ReturnUrlKey + ret)
      && EditProfileUrl(p, server) == Success(base + EditProfileQuery + ReturnUrlKey + ret)
      && RegistrationUrl(p, server) == Success(base + RegistrationQuery + ReturnUrlKey + ret)
      && OrderMembershipUrl(p, server) == Success(base + OrderMembershipQuery + ReturnUrlKey + ret)
      && LogoutUrl(p, server) == Success(base + LogoutQuery + ReturnUrlKey + ret)
      && KidMembershipOrderRecapitulationUrl(p, server, orderId)
         == Success(base + (OrderRecapitulationQuery + orderId + "&") + ReturnUrlKey + ret)
  {
  }

  /** The access-token URL is the base URL and a fixed path, whatever the
      request parameters and the return URL hold. */
  lemma AccessTokenUrlIgnoresParams(p: Provider, params: map<Bytes, Value>, params': map<Bytes, Value>, url: Option<Bytes>)
    requires p.environment in p.baseUrls
    ensures BaseAccessTokenUrl(p, params) == Success(p.baseUrls[p.environment] + "/oauth2/access-token")
    ensures BaseAccessTokenUrl(p, params) == BaseAccessTokenUrl(p.(returnUrl := url), params')
  {
  }

  /** The two membership API URLs carry no return URL: they are the base URL
      and a fixed path, and do not depend on the return URL. */
  lemma MembershipApiUrlsHaveNoReturnUrl(p: Provider, url: Option<Bytes>)
    requires p.environment in p.baseUrls
    ensures OrderKidMembershipUrl(p) == Success(p.baseUrls[p.environment] + "/api/1.0/orders/memberships/associated")
    ensures OrderKidMembershipUrl(p) == OrderKidMembershipUrl(p.(returnUrl := url))
    ensures HasSpartaCampMembershipUrl(p) == Success(p.baseUrls[p.environment] + "/api/1.0/orders/memberships/spartacamp")
    ensures HasSpartaCampMembershipUrl(p) == HasSpartaCampMembershipUrl(p.(returnUrl := url))
  {
  }

  /** `getBaseUrl()` depends on the environment alone, and every builder's
      URL starts with it; every builder fails exactly when it fails. */
  lemma BuildersStartWithBaseUrl(p: Provider, server: Option<RequestCtx>, token: AccessToken, orderId: Bytes, params: map<Bytes, Value>, url: Option<Bytes>)
    ensures BaseUrl(p) == BaseUrl(p.(returnUrl := url))
    ensures BaseUrl(p).Failure? ==>
      && BaseAuthorizationUrl(p, server).Failure?
      && BaseAccessTokenUrl(p, params).Failure?
      && ResourceOwnerDetailsUrl(p, server, token).Failure?
      && ProfileUrl(p, server).Failure?
      && EditProfileUrl(p, server).Failure?
      && RegistrationUrl(p, server).Failure?
      && OrderKidMembershipUrl(p).Failure?
      && OrderMembershipUrl(p, server).Failure?
      && KidMembershipOrderRecapitulationUrl(p, server, orderId).Failure?
      && LogoutUrl(p, server).Failure?
      && HasSpartaCampMembershipUrl(p).Failure?
    ensures BaseUrl(p).Success? ==> var base := BaseUrl(p).value;
      && IsPrefix(base, BaseAuthorizationUrl(p, server).value)
      && IsPrefix(base, BaseAccessTokenUrl(p, params).value)
      && IsPrefix(base, ResourceOwnerDetailsUrl(p, server, token).value)
      && IsPrefix(base, ProfileUrl(p, server).value)
      && IsPrefix(base, EditProfileUrl(p, server).value)
      && IsPrefix(base, RegistrationUrl(p, server).value)
      && IsPrefix(base, OrderKidMembershipUrl(p).value)
      && IsPrefix(base, OrderMembershipUrl(p, server).value)
      && IsPrefix(base, KidMembershipOrderRecapitulationUrl(p, server, orderId).value)
      && IsPrefix(base, LogoutUrl(p, server).value)
      && IsPrefix(base, HasSpartaCampMembershipUrl(p).value)
  {
  }

  /** The order id comes first in the order-recapitulation query, unescaped:
      the raw bytes up to the next `&` are the order id exactly when it holds
      no `&`. A receiver that also decodes the value misreads `+` and `%XX`
      escapes (see `OrderIdPlusReadsAsSpace` and
      `OrderIdDecodedReadBackExactly`). */
  lemma OrderIdReadBack(p: Provider, server: Option<RequestCtx>, orderId: Bytes)
    requires p.environment in p.baseUrls
    ensures var url, prefix := KidMembershipOrderRecapitulationUrl(p, server, orderId).value, p.baseUrls[p.environment] + OrderRecapitulationQuery;
      && IsPrefix(prefix, url)
      && (BeforeAmpersand(url[|prefix|..]) == orderId <==> '&' !in orderId)
  {
    var base, ret := p.baseUrls[p.environment], ReturnUrl(p, server);
    var url := KidMembershipOrderRecapitulationUrl(p, server, orderId).value;
    assert url == base + (OrderRecapitulationQuery + orderId + "&") + ReturnUrlKey + ret;
    Regroup(base, OrderRecapitulationQuery, orderId, "&", ReturnUrlKey, ret);
    ReadBackBeforeAmpersand(base + OrderRecapitulationQuery, orderId, ReturnUrlKey + ret);
  }

  /** A decoding receiver gets the order id back exactly when it holds no
      `&` and `urldecode` leaves it unchanged. */
  lemma OrderIdDecodedReadBackExactly(p: Provider, server: Option<RequestCtx>, orderId: Bytes)
    requires p.environment in p.baseUrls
    ensures var url, prefix := KidMembershipOrderRecapitulationUrl(p, server, orderId).value, p.baseUrls[p.environment] + OrderRecapitulationQuery;
      UrlCoding.Decode(BeforeAmpersand(url[|prefix|..])) == orderId
      <==> '&' !in orderId && UrlCoding.Decode(orderId) == orderId
  {
    OrderIdSegment(p, server, orderId);
    DecodedReadExactly(orderId, ReturnUrlKey + ReturnUrl(p, server));
  }

  /** After the fixed prefix come the raw order id, `&` and the rest. */
  lemma OrderIdSegment(p: Provider, server: Option<RequestCtx>, orderId: Bytes)
    requires p.environment in p.baseUrls
    ensures var url, prefix := KidMembershipOrderRecapitulationUrl(p, server, orderId).value, p.baseUrls[p.environment] + OrderRecapitulationQuery;
      && IsPrefix(prefix, url)
      && url[|prefix|..] == orderId + "&" + (ReturnUrlKey + ReturnUrl(p, server))
  {
    var base, ret := p.baseUrls[p.environment], ReturnUrl(p, server);
    var url := KidMembershipOrderRecapitulationUrl(p, server, orderId).value;
    assert url == base + (OrderRecapitulationQuery + orderId + "&") + ReturnUrlKey + ret;
    Regroup(base, OrderRecapitulationQuery, orderId, "&", ReturnUrlKey, ret);
    ReadBackBeforeAmpersand(base + OrderRecapitulationQuery, orderId, ReturnUrlKey + ret);
  }

  /** Reading up to the first `&` and decoding gives `value` back exactly
      when it holds no `&` and decoding leaves it unchanged. */
  lemma DecodedReadExactly(value: Bytes, rest: Bytes)
    ensures UrlCoding.Decode(BeforeAmpersand(value + "&" + rest)) == value
      <==> '&' !in value && UrlCoding.Decode(value) == value
  {
    BeforeAmpersandOfValue(value, rest);
    if '&' in value {
      var j :| 0 <= j < |value| && value[j] == '&';
      assert (value + "&" + rest)[j] == '&';
      ReadStopsAtAmpersand(value + "&" + rest, j);
    }
  }

  /** The raw read ends no later than the first `&`, and decoding only
      shortens it. */
  lemma ReadStopsAtAmpersand(rest: Bytes, j: nat)
    requires j < |rest| && rest[j] == '&'
    ensures |UrlCoding.Decode(BeforeAmpersand(rest))| <= j
  {
  }

  /** A decoding receiver reads the order id decoded, whenever it holds no
      `&`. */
  lemma OrderIdDecodedRead(p: Provider, server: Option<RequestCtx>, orderId: Bytes)
    requires p.environment in p.baseUrls
    requires '&' !in orderId
    ensures var url, prefix := KidMembershipOrderRecapitulationUrl(p, server, orderId).value, p.baseUrls[p.environment] + OrderRecapitulationQuery;
      UrlCoding.Decode(BeforeAmpersand(url[|prefix|..])) == UrlCoding.Decode(orderId)
  {
    OrderIdReadBack(p, server, orderId);
  }

  /** An order id made of unreserved bytes survives a decoding receiver. */
  lemma OrderIdDecodedReadBack(p: Provider, server: Option<RequestCtx>, orderId: Bytes)
    requires p.environment in p.baseUrls
    requires UrlCoding.AllUnreserved(orderId)
    ensures var url, prefix := KidMembershipOrderRecapitulationUrl(p, server, orderId).value, p.baseUrls[p.environment] + OrderRecapitulationQuery;
      UrlCoding.Decode(BeforeAmpersand(url[|prefix|..])) == orderId
  {
    UnreservedHasNoAmpersand(orderId);
    OrderIdDecodedRead(p, server, orderId);
    UrlCoding.DecodeFixesUnreserved(orderId);
  }

  /** Because the order id is not encoded, a decoding receiver reads the
      order id `a+b` as `a b`. */
  lemma OrderIdPlusReadsAsSpace(p: Provider, server: Option<RequestCtx>, orderId: Bytes)
    requires p.environment in p.baseUrls
    requires orderId == "a" + "+" + "b"
    ensures var url, prefix := KidMembershipOrderRecapitulationUrl(p, server, orderId).value, p.baseUrls[p.environment] + OrderRecapitulationQuery;
      UrlCoding.Decode(BeforeAmpersand(url[|prefix|..])) == "a b"
  {
    assert orderId[0] == 'a' && orderId[1] == '+' && orderId[2] == 'b';
    OrderIdDecodedRead(p, server, orderId);
    DecodePlus();
  }

  lemma UnreservedHasNoAmpersand(v: Bytes)
    requires UrlCoding.AllUnreserved(v)
    ensures '&' !in v
  {
    assert forall i | 0 <= i < |v| :: v[i] != '&';
  }

  lemma DecodePlus()
    ensures UrlCoding.Decode("a" + "+" + "b") == "a b"
  {
    assert "a" + "+" + "b" == "a+b";
    assert "a+b"[1..] == "+b" && "+b"[1..] == "b";
  }

  lemma Regroup(a: Bytes, b: Bytes, c: Bytes, d: Bytes, e: Bytes, f: Bytes)
    ensures a + (b + c + d) + e + f == a + b + c + d + (e + f)
  {
  }

  /** A truthy explicit return URL wins: the request context is ignored. */
  lemma ExplicitReturnUrlWins(p: Provider, server: Option<RequestCtx>, server': Option<RequestCtx>)
    requires p.returnUrl.Some? && Truthy(p.returnUrl.value)
    ensures ReturnUrl(p, server) == ReturnUrl(p, server')
    ensures UrlCoding.Decode(ReturnUrl(p, server)) == p.returnUrl.value
  {
  }

  /** With no usable explicit return URL and no request URI the return URL is
      empty, and the builders end in an empty `returnUrl=`. */
  lemma NoContextGivesEmptyReturnUrl(p: Provider, token: AccessToken, orderId: Bytes)
    requires !TruthyOption(p.returnUrl)
    requires p.environment in p.baseUrls
    ensures ReturnUrl(p, None) == ""
    ensures IsSuffix(ReturnUrlKey, BaseAuthorizationUrl(p, None).value)
    ensures IsSuffix(ReturnUrlKey, ResourceOwnerDetailsUrl(p, None, token).value)
    ensures IsSuffix(ReturnUrlKey, ProfileUrl(p, None).value)
    ensures IsSuffix(ReturnUrlKey, EditProfileUrl(p, None).value)
    ensures IsSuffix(ReturnUrlKey, RegistrationUrl(p, None).value)
    ensures IsSuffix(ReturnUrlKey, OrderMembershipUrl(p, None).value)
    ensures IsSuffix(ReturnUrlKey, KidMembershipOrderRecapitulationUrl(p, None, orderId).value)
    ensures IsSuffix(ReturnUrlKey, LogoutUrl(p, None).value)
  {
    EmptyReturnUrlEndsWithKey(p, AuthorizeQuery);
    EmptyReturnUrlEndsWithKey(p, ProfileDetailsQuery);
    EmptyReturnUrlEndsWithKey(p, ProfileQuery);
    EmptyReturnUrlEndsWithKey(p, EditProfileQuery);
    EmptyReturnUrlEndsWithKey(p, RegistrationQuery);
    EmptyReturnUrlEndsWithKey(p, OrderMembershipQuery);
    EmptyReturnUrlEndsWithKey(p, RecapitulationQuery(orderId));
    EmptyReturnUrlEndsWithKey(p, LogoutQuery);
  }

  lemma EmptyReturnUrlEndsWithKey(p: Provider, query: Bytes)
    requires !TruthyOption(p.returnUrl)
    requires p.environment in p.baseUrls
    ensures IsSuffix(ReturnUrlKey, WithReturnUrl(p, None, query).value)
  {
    var front := p.baseUrls[p.environment] + query;
    assert WithReturnUrl(p, None, query).value == front + ReturnUrlKey + "";
    assert front + ReturnUrlKey + "" == front + ReturnUrlKey;
  }

  /** Otherwise the return URL is the current request's scheme, host and
      URI, encoded. */
  lemma FallsBackToCurrentRequest(p: Provider, ctx: RequestCtx)
    requires !TruthyOption(p.returnUrl)
    ensures UrlCoding.Decode(ReturnUrl(p, Some(ctx))) == (if ctx.https then "https" else "http") + "://" + ctx.host + ctx.uri
  {
  }

  /** An explicit return URL of "" or "0" is falsy and behaves as if none
      had been set. */
  lemma FalsyReturnUrlIsIgnored(p: Provider, url: Bytes, server: Option<RequestCtx>)
    requires url == "" || url == "0"
    ensures ReturnUrl(SetReturnUrl(p, url), server) == ReturnUrl(p.(returnUrl := None), server)
  {
  }

  /** The example of an explicit return URL with a query of its own,
      `https://app.example/cb?x=1` (written piece by piece). */
  lemma ExplicitReturnUrlExample(p: Provider, server: Option<RequestCtx>)
    requires p.environment in p.baseUrls
    requires p.returnUrl == Some("https" + ":" + "/" + "/" + "app.example" + "/" + "cb" + "?" + "x" + "=" + "1")
    ensures BaseAuthorizationUrl(p, server) == Success(p.baseUrls[p.environment] + AuthorizeQuery + ReturnUrlKey
      + ("https" + "%3A" + "%2F" + "%2F" + "app.example" + "%2F" + "cb" + "%3F" + "x" + "%3D" + "1"))
  {
    var encoded := "https" + "%3A" + "%2F" + "%2F" + "app.example" + "%2F" + "cb" + "%3F" + "x" + "%3D" + "1";
    EncodeUrlWithQuery("https", "app.example", "cb", "x", "1");
    assert Truthy(p.returnUrl.value) by {
      assert p.returnUrl.value[0] == 'h';
    }
    assert ReturnUrl(p, server) == encoded;
  }

  /** The encoding of `scheme://host/path?key=value` when every part is
      made of unreserved bytes: only the delimiters are escaped. */
  lemma EncodeUrlWithQuery(scheme: Bytes, host: Bytes, path: Bytes, key: Bytes, value: Bytes)
    requires UrlCoding.AllUnreserved(scheme) && UrlCoding.AllUnreserved(host) && UrlCoding.AllUnreserved(path)
    requires UrlCoding.AllUnreserved(key) && UrlCoding.AllUnreserved(value)
    ensures UrlCoding.Encode(scheme + ":" + "/" + "/" + host + "/" + path + "?" + key + "=" + value)
      == scheme + "%3A" + "%2F" + "%2F" + host + "%2F" + path + "%3F" + key + "%3D" + value
  {
    EncodeDelimiters();
    var s, e := EncodeUnreservedStep([], [], scheme);
    assert [] + scheme == scheme;
    s, e := EncodeStep(s, e, ":", "%3A");
    s, e := EncodeStep(s, e, "/", "%2F");
    s, e := EncodeStep(s, e, "/", "%2F");
    s, e := EncodeUnreservedStep(s, e, host);
    s, e := EncodeStep(s, e, "/", "%2F");
    s, e := EncodeUnreservedStep(s, e, path);
    s, e := EncodeStep(s, e, "?", "%3F");
    s, e := EncodeUnreservedStep(s, e, key);
    s, e := EncodeStep(s, e, "=", "%3D");
    s, e := EncodeUnreservedStep(s, e, value);
  }

  /** The delimiters of the example, each encoded on its own. */
  lemma EncodeDelimiters()
    ensures UrlCoding.Encode(":") == "%3A"
    ensures UrlCoding.Encode("/") == "%2F"
    ensures UrlCoding.Encode("?") == "%3F"
    ensures UrlCoding.Encode("=") == "%3D"
  {
  }

  /** Encoding a string extended by a run of unreserved bytes. */
  lemma EncodeUnreservedStep(s: Bytes, e: Bytes, piece: Bytes) returns (s': Bytes, e': Bytes)
    requires UrlCoding.Encode(s) == e
    requires UrlCoding.AllUnreserved(piece)
    ensures s' == s + piece && e' == e + piece
    ensures UrlCoding.Encode(s') == e'
  {
    UrlCoding.EncodeFixesExactlyUnreserved(piece);
    UrlCoding.EncodeAppend(s, piece);
    s', e' := s + piece, e + piece;
  }

  /** Encoding a string extended by a piece whose encoding is known. */
  lemma EncodeStep(s: Bytes, e: Bytes, piece: Bytes, encoded: Bytes) returns (s': Bytes, e': Bytes)
    requires UrlCoding.Encode(s) == e && UrlCoding.Encode(piece) == encoded
    ensures s' == s + piece && e' == e + encoded
    ensures UrlCoding.Encode(s') == e'
  {
    UrlCoding.EncodeAppend(s, piece);
    s', e' := s + piece, e + encoded;
  }

  /** `checkResponse` raises an error exactly when `error` is set and not
      null; the other keys of the body (besides `message`) play no part. */
  lemma CheckResponseIgnoresOtherKeys(data: map<Bytes, Value>, k: Bytes, v: Value, status: int, reasonPhrase: Bytes)
    requires k != "error" && k != "message"
    ensures CheckResponse(data[k := v], status, reasonPhrase) == CheckResponse(data, status, reasonPhrase)
  {
  }

  /** The raised error never carries a falsy message unless the reason
      phrase itself is falsy. */
  lemma CheckResponseMessageIsTruthy(data: map<Bytes, Value>, status: int, reasonPhrase: Bytes)
    requires Truthy(reasonPhrase)
    ensures var r := CheckResponse(data, status, reasonPhrase);
      r.Some? ==> TruthyValue(r.value.message)
  {
  }

  /** Examples of `checkResponse`. */
  lemma CheckResponseExamples(reasonPhrase: Bytes, status: int)
    ensures CheckResponse(map["error" := Str("invalid_grant"), "message" := Str("bad code")], 400, reasonPhrase)
      == Some(IdentityProviderError(Str("bad code"), 400))
    ensures CheckResponse(map["error" := Str("x"), "message" := Str("")], status, reasonPhrase)
      == Some(IdentityProviderError(Str(reasonPhrase), status))
    ensures CheckResponse(map["error" := Str("x"), "message" := Str("0")], status, reasonPhrase)
      == Some(IdentityProviderError(Str(reasonPhrase), status))
    ensures CheckResponse(map["error" := Str("x")], status, reasonPhrase)
      == Some(IdentityProviderError(Str(reasonPhrase), status))
    ensures CheckResponse(map["error" := Null, "message" := Str("bad code")], status, reasonPhrase) == None
    ensures CheckResponse(map["message" := Str("bad code")], status, reasonPhrase) == None
  {
  }

  /** The payload never carries a falsy ip address or user agent, and
      building it again from itself changes nothing. */
  lemma WebPageLoadDataNormalises(url: Bytes, ipAddress: Option<Bytes>, userAgent: Option<Bytes>)
    ensures var d := WebPageLoadData(url, ipAddress, userAgent);
      && (d.ipAddress.Some? ==> Truthy(d.ipAddress.value))
      && (d.userAgent.Some? ==> Truthy(d.userAgent.value))
      && WebPageLoadData(d.url, d.ipAddress, d.userAgent) == d
  {
  }

  /** The scopes requested by default are exactly `profile`. */
  lemma DefaultScopesAreProfile()
    ensures DefaultScopes() == ["profile"]
  {
  }
}

=== FILE: urlcoding.dfy ===
/** PHP's `urlencode` and `urldecode`.

    `urlencode` is the percent-encoding of section 2.1 of RFC 3986 applied
    to every byte outside `[A-Za-z0-9._-]`, with two departures from the
    unreserved set of section 2.3: `~` is percent-encoded and a space is
    written as `+` (the form encoding of HTML). Hex digits are upper case.
    `urldecode` turns `+` into a space, decodes `%` followed by two hex
    digits of either case, and copies every other byte unchanged. */
module UrlCoding {
  import opened Bytes

  /** The bytes `urlencode` copies unchanged. */
  predicate Unreserved(b: Byte) {
    || ('A' <= b <= 'Z')
    || ('a' <= b <= 'z')
    || ('0' <= b <= '9')
    || b == '-' || b == '_' || b == '.'
  }

  predicate IsUpperHex(b: Byte) {
    ('0' <= b <= '9') || ('A' <= b <= 'F')
  }

  predicate IsHex(b: Byte) {
    IsUpperHex(b) || ('a' <= b <= 'f')
  }

  /** The bytes `urlencode` can emit. */
  predicate Safe(b: Byte) {
    Unreserved(b) || b == '+' || b == '%'
  }

  predicate AllSafe(s: Bytes) {
    forall i :: 0 <= i < |s| ==> Safe(s[i])
  }

  /** Every `%` starts an escape of two upper-case hex digits. */
  predicate PercentWellFormed(s: Bytes) {
    forall i :: 0 <= i < |s| && s[i] == '%' ==> i + 2 < |s| && IsUpperHex(s[i + 1]) && IsUpperHex(s[i + 2])
  }

  /** The value of a hex digit of either case. */
  function HexValue(c: Byte): (n: nat)
    requires IsHex(c)
    ensures n < 16
  {
    if '0' <= c <= '9' then c as int - '0' as int
    else if 'A' <= c <= 'F' then c as int - 'A' as int + 10
    else c as int - 'a' as int + 10
  }

  /** The upper-case hex digit of `n`, as `urlencode`'s digit table gives it. */
  function HexDigit(n: nat): (c: Byte)
    requires n < 16
    ensures IsUpperHex(c) && HexValue(c) == n
  {
    if n < 10 then ByteOf('0' as int + n) else ByteOf('A' as int + n - 10)
  }

  /** The encoding of one byte. */
  function EncodeByte(b: Byte): (r: Bytes)
    ensures AllSafe(r) && PercentWellFormed(r)
    ensures |r| == 1 || |r| == 3
    ensures r == [b] <==> Unreserved(b)
  {
    if b == ' ' then "+"
    else if Unreserved(b) then [b]
    else ['%', HexDigit(b as int / 16), HexDigit(b as int % 16)]
  }

  /** `urlencode($s)` */
  function Encode(s: Bytes): (r: Bytes)
    ensures |s| <= |r| <= 3 * |s|
    ensures AllSafe(r)
  {
    if s == [] then [] else EncodeByte(s[0]) + Encode(s[1..])
  }

  /** `urldecode($s)` */
  function Decode(s: Bytes): (r: Bytes)
    ensures |r| <= |s|
  {
    if s == [] then []
    else if s[0] == '+' then [' '] + Decode(s[1..])
    else if s[0] == '%' && |s| >= 3 && IsHex(s[1]) && IsHex(s[2]) then
      [ByteOf(HexValue(s[1]) * 16 + HexValue(s[2]))] + Decode(s[3..])
    else [s[0]] + Decode(s[1..])
  }

  /** Decoding undoes the encoding of a byte, whatever follows it. */
  lemma DecodeEncodeByte(b: Byte, rest: Bytes)
    ensures Decode(EncodeByte(b) + rest) == [b] + Decode(rest)
  {
  }

  /** `urldecode(urlencode($s)) === $s` */
  lemma {:induction false} DecodeEncode(s: Bytes)
    ensures Decode(Encode(s)) == s
  {
    if s != [] {
      DecodeEncodeByte(s[0], Encode(s[1..]));
      DecodeEncode(s[1..]);
      assert [s[0]] + s[1..] == s;
    }
  }

  /** Distinct strings encode differently. */
  lemma EncodeInjective(a: Bytes, b: Bytes)
    ensures Encode(a) == Encode(b) ==> a == b
  {
    DecodeEncode(a);
    DecodeEncode(b);
  }

  lemma ConcatPercentWellFormed(a: Bytes, b: Bytes)
    requires PercentWellFormed(a) && PercentWellFormed(b)
    ensures PercentWellFormed(a + b)
  {
  }

  /** Every `%` that `urlencode` writes is followed by two upper-case hex digits. */
  lemma {:induction false} EncodePercentWellFormed(s: Bytes)
    ensures PercentWellFormed(Encode(s))
  {
    if s != [] {
      EncodePercentWellFormed(s[1..]);
      ConcatPercentWellFormed(EncodeByte(s[0]), Encode(s[1..]));
    }
  }

  /** The encoded string never holds a query or fragment delimiter. */
  lemma EncodeHasNoQueryDelimiters(s: Bytes)
    ensures forall i :: 0 <= i < |Encode(s)| ==>
      Encode(s)[i] != '&' && Encode(s)[i] != '=' && Encode(s)[i] != '?' && Encode(s)[i] != '#'
  {
  }

  /** Encoding distributes over concatenation. */
  lemma {:induction false} EncodeAppend(a: Bytes, b: Bytes)
    ensures Encode(a + b) == Encode(a) + Encode(b)
  {
    if a != [] {
      assert (a + b)[0] == a[0] && (a + b)[1..] == a[1..] + b;
      EncodeAppend(a[1..], b);
    } else {
      assert a + b == b;
    }
  }

  predicate AllUnreserved(s: Bytes) {
    forall i :: 0 <= i < |s| ==> Unreserved(s[i])
  }

  /** `urlencode` leaves a string unchanged exactly when all of its bytes are
      unreserved. */
  lemma {:induction false} EncodeFixesExactlyUnreserved(s: Bytes)
    ensures Encode(s) == s <==> AllUnreserved(s)
  {
    if AllUnreserved(s) {
      EncodeFixesUnreserved(s);
    }
    if Encode(s) == s {
      FixedPointIsUnreserved(s);
    }
  }

  /** `urldecode` leaves a string of unreserved bytes unchanged. */
  lemma DecodeFixesUnreserved(s: Bytes)
    requires AllUnreserved(s)
    ensures Decode(s) == s
  {
    EncodeFixesUnreserved(s);
    DecodeEncode(s);
  }

  lemma {:induction false} EncodeFixesUnreserved(s: Bytes)
    requires AllUnreserved(s)
    ensures Encode(s) == s
  {
    if s != [] {
      assert Unreserved(s[0]);
      assert AllUnreserved(s[1..]) by {
        forall i | 0 <= i < |s[1..]| ensures Unreserved(s[1..][i]) {
          assert s[1..][i] == s[i + 1];
        }
      }
      EncodeFixesUnreserved(s[1..]);
      assert [s[0]] + s[1..] == s;
    }
  }

  lemma {:induction false} FixedPointIsUnreserved(s: Bytes)
    requires Encode(s) == s
    ensures AllUnreserved(s)
  {
    if s != [] {
      var head, tail := EncodeByte(s[0]), Encode(s[1..]);
      assert s == head + tail;
      assert |head| == 1 && head[0] == s[0];
      assert head == [s[0]];
      assert tail == s[1..];
      FixedPointIsUnreserved(s[1..]);
      forall i | 0 <= i < |s| ensures Unreserved(s[i]) {
        if i > 0 {
          assert s[i] == s[1..][i - 1];
        }
      }
    }
  }
}
